=== FILE: README.md ===
# GitHub Time Travel: a Dafny model of the page's core

The GitHub Time Travel page shows a year of days as a contribution graph.
Each square is a day with a contribution count. Clicking a square selects or
deselects its date. From the selected dates the page builds a bash script.
Run inside a git repository, the script makes one commit per selected date,
with the author and committer dates pinned to noon on that date.

This project models four parts of that page (`app/page.tsx`):

- **Grouping into weeks** (`weeklyData`, module `Weeks`). The days are laid
  out in columns of seven. Padding cells come before the first day, up to
  its weekday. The last partial week is padded at the end. The page's loop
  is modelled as the method `Weeks.WeeklyData`. It is proved equal to a
  reference definition, `Weeks.Partition`, which is the padded cells cut
  into sevens. Lemmas about `Partition` give the shape of the grid: every
  cell's position, the number of weeks, and that no day is lost or reordered.
- **Selection** (`toggleDate` and the "Clear Selection" button, module
  `Selection`). The selection is a set of ISO date strings. Clicking a
  padding cell, whose date is empty, changes nothing. `Contribution` gives
  the graph cells whose `selected` flag mirrors the set.
- **Cell colour** (`getContributionColor`, module `Palette`).
- **Script generation** (`generateScript`, modules `Lexicographic`, `Text`,
  `Template` and `Script`). The dates are sorted as `Array.prototype.sort`
  sorts strings. Every hyphen is stripped from a date to name its marker
  file. The header, one six-line block per date and the trailer are put
  together exactly as the template literal does. The main theorems split the
  generated text back into lines. They show that the script commits each
  selected date exactly once, in ascending order, that both count lines
  report the number of dates, and that the text depends only on the set of
  selected dates, not on the order it is enumerated in.

The template is written as the list of its lines, joined with newlines by a
model of `Array.prototype.join`. Rendered, it is the same text as the
page's template literal, character for character, emoji included. Lines
longer than about forty characters are written as two literals joined
together. This keeps the proofs about their characters small and does not
change the text.

The page keeps a plain set of selected dates. A click toggles membership,
and the script has exactly one block per date, so both count lines report
the number of dates. The grid covers the year ending today, with random
counts; the model takes the days as input (see "Left out").

## Model

| member | source | states |
|---|---|---|
| Contribution.ContributionData | app/page.tsx:26-33 | each graph cell keeps its sampled date and count, and its `selected` flag is exactly whether the date is in the selection |
| Weeks.WeeklyData | app/page.tsx:39-70 | the page's per-day grouping loop returns exactly the reference grid `Partition(days, firstWeekday)` |
| Weeks.VisitDay | app/page.tsx:43-59 | one visit pushes the leading padding on the first day, then the day, and closes the week at seven cells; the cells seen so far grow by exactly the padding and that day, and every closed week has seven cells |
| Weeks.CloseLastWeek | app/page.tsx:61-67 | a non-empty unfinished week is padded to seven cells and appended; an empty one adds nothing |
| Weeks.PadTo | app/page.tsx:48-50 | pushing placeholders until the week holds `size` cells appends exactly as many placeholders as the week lacks |
| Weeks.PartitionWeeksHaveSevenCells | app/page.tsx:55-66 | every week of the grid has exactly seven cells |
| Weeks.PartitionWeekCount | app/page.tsx:39-70 | no days give no weeks; otherwise the grid has ceil((firstWeekday + days) / 7) weeks |
| Weeks.PartitionCell | app/page.tsx:43-67 | cell `c` of week `w` is day `7w + c - firstWeekday` when that index is a day, and a placeholder otherwise |
| Weeks.PartitionWeeksHoldDays | app/page.tsx:43-67 | every week of the grid holds at least one real day, so padding never fills a whole week |
| Weeks.PartitionFirstWeek | app/page.tsx:46-53 | the first week opens with `firstWeekday` placeholders followed by the first day |
| Weeks.PartitionFlatten | app/page.tsx:43-67 | read column by column, the grid is `firstWeekday` placeholders, all days in order, and fewer than seven trailing placeholders |
| Weeks.PartitionKeepsDays | app/page.tsx:43-67 | dropping the placeholders from the grid gives back exactly the days, in order |
| Selection.Toggle | app/page.tsx:72-82 | an empty date leaves the selection unchanged; any other date flips its own membership and no other date's |
| Selection.ToggleTwice | app/page.tsx:72-82 | toggling the same date twice restores the selection |
| Selection.ToggleSize | app/page.tsx:72-82 | a click on a real date changes the selection's size by exactly one, up or down depending on membership |
| Selection.ToggleCommutes | app/page.tsx:72-82 | toggles of two dates give the same selection in either order |
| Selection.ToggleFlipsOnlyItsCells | app/page.tsx:26-36 | when the graph is rebuilt after a click with freshly drawn counts for the same dates, every cell keeps its date, shows its new count, and has its highlight flipped exactly when it carries the clicked date |
| Selection.Clear | app/page.tsx:254 | clearing leaves no date selected |
| Selection.ClearUnhighlightsAll | app/page.tsx:254 | after clearing, no cell of the rebuilt graph is highlighted, whatever counts it draws |
| Palette.ContributionColor | app/page.tsx:84-91 | selected cells are purple whatever their count; an unselected cell is grey exactly for count 0, one of three greens exactly for counts 1, 2 and 3, and the darkest green for every other count, negative ones included |
| Palette.ClassesDistinct | app/page.tsx:85-90 | the six colour classes are pairwise different |
| Palette.SameColorSameBand | app/page.tsx:84-91 | two unselected cells share a colour exactly when their counts are equal or both lie outside 0..3 |
| Lexicographic.Less | app/page.tsx:94 | the comparison `.sort()` uses on strings; it has no contract of its own, and `Lexicographic.LessIrreflexive`, `Lexicographic.LessTransitive` and `Lexicographic.LessTotal` make it a strict total order |
| Lexicographic.Insert | app/page.tsx:94 | inserting into a sorted list keeps it sorted and adds exactly one copy of the element |
| Lexicographic.Sort | app/page.tsx:94 | the result is sorted and a permutation of the input |
| Lexicographic.SortDistinct | app/page.tsx:94 | sorting an enumeration of a set gives strictly ascending dates, as many as the set has, with the same members |
| Lexicographic.StrictlyIncreasingUnique | app/page.tsx:94 | two strictly ascending lists with the same members are equal |
| Lexicographic.LessTotal | app/page.tsx:94 | any two different strings are ordered one way or the other |
| Lexicographic.LessTransitive | app/page.tsx:94 | the string order is transitive |
| Text.Decimal | app/page.tsx:106 | the count is written as decimal digits without leading zeros whose value is the count |
| Text.Join | app/page.tsx:117 | `.join("\n")`; it has no contract of its own, and `Text.LinesOfJoin` shows that splitting the joined text into lines gives the parts back |
| Text.LinesOfJoin | app/page.tsx:108-117 | splitting newline-free lines joined with newlines gives the lines back |
| Script.StripHyphens | app/page.tsx:112 | the result has no hyphen and keeps every other character with its multiplicity |
| Script.StripHyphensIdempotent | app/page.tsx:112 | stripping twice is stripping once |
| Script.StripHyphensOfIsoDate | app/page.tsx:112 | an ISO date `YYYY-MM-DD` becomes its eight digits `YYYYMMDD` |
| Script.FileNameInjective | app/page.tsx:112-115 | different ISO dates get different marker files |
| Script.BlockSharesFile | app/page.tsx:112-115 | for any date, the echo line writes that date and ends with the date's marker file, and the `git add` and `rm` lines end with the same file |
| Script.BlockConsistent | app/page.tsx:110-115 | for an ISO date, the echo, `git add` and `rm` lines end with the same file `temp_file_YYYYMMDD.txt` |
| Script.BlockLines | app/page.tsx:110-115 | the six-line block for one date; it has no contract of its own, and `Script.CommitCommandsOfBlock`, `Script.BlockSharesFile` and `Script.CommitPinsDates` give its content |
| Script.CommitCommandsOfBlock | app/page.tsx:110-115 | a date's block holds exactly one commit command, the one for that date |
| Template.TemplateLines | app/page.tsx:96-122 | for any newline-free header, groups and trailer, the rendered text splits into the header lines, each group's lines in order, and the trailer lines |
| Script.CommitPinsDates | app/page.tsx:114 | a date's commit command sets `GIT_AUTHOR_DATE` and, after the closing quote, `GIT_COMMITTER_DATE` each to exactly the quoted stamp `date` + `T12:00:00`, and its message ends with the date |
| Script.ScriptLines | app/page.tsx:96-122 | the script's lines are the twelve header lines, then the six lines of each date's block in order, then the five trailer lines |
| Script.ScriptCommits | app/page.tsx:108-117 | the script's commit commands are one per date, in the dates' order |
| Script.ScriptBanners | app/page.tsx:106-119 | whatever the dates contain, line 11 of the script is the banner and the fourth line from the end is the "Created" line, both showing the number of dates |
| Script.GenerateScript | app/page.tsx:93-125 | `generateScript`: sort the selection, then render the template; it has no contract of its own, and the four `Script.GenerateScript…` lemmas below give what the text holds |
| Script.GenerateScriptCommitsSelection | app/page.tsx:93-125 | the generated script's commit commands are those of the sorted dates, which are exactly the selected dates, each once, strictly ascending |
| Script.GenerateScriptCommitsIsoSelection | app/page.tsx:93-125 | for a selection of ISO dates, as every date the page offers is, the generated script commits each selected date exactly once, strictly ascending |
| Script.GenerateScriptReportsCount | app/page.tsx:93-125 | both count lines of the generated script report the number of selected dates |
| Script.GenerateScriptDependsOnlyOnSelection | app/page.tsx:93-94 | any two enumerations of the same selection produce the same script |

## Left out

- Selection.ToggleFlipsOnlyItsCells: the page rebuilds the graph on every selection change (line 36). It redraws every count (line 30) and reads the clock again (line 23). The lemma lets the counts change freely but assumes the dates stay the same, which fails if the day changes between two clicks.
- The random contribution counts and the date range, `app/page.tsx:21-36`. `Math.random`, `new Date()` and `toISOString` are not modelled. `Contribution.ContributionData` takes the `(date, count)` samples as input.
- Weeks.WeeklyData: the weekday of the first day, `new Date(day.date).getDay()` at line 44, is a parameter `firstWeekday < 7`. Date parsing and the time-zone behaviour of `getDay` are not modelled.
- Lexicographic.Sort: JavaScript's default sort compares UTF-16 code units. The model compares Dafny characters, which are Unicode scalar values. The two orders agree on the ASCII digits and hyphens that dates are made of.
- Script.GenerateScriptCommitsSelection: assumes the selected dates contain no newline character, since a date with one could smuggle in an extra commit line. Every date the page can select is an ISO date, which has none; `Script.GenerateScriptCommitsIsoSelection` states the result for ISO dates without that assumption.
- Palette.ContributionColor: counts are modelled as integers, while the page's `count` is a JavaScript number. A fractional count or `NaN` would fall through to the darkest green at line 90, which the model does not cover. Every count the page produces is an integer: `Math.floor(Math.random() * 5)` at line 30 gives 0 to 4, and a padding cell has count 0.
- Copying and downloading the script, `app/page.tsx:127-142`: these are browser I/O, the clipboard and a file download.
- The rendering, JSX and React state hooks, including the show/hide script toggle. The Generate and Clear buttons are disabled for an empty selection (lines 249, 254), and the script card is shown only for a non-empty one (line 260); this is UI state. The model's `Clear` and `GenerateScript` accept any selection, the empty one included.
- `app/layout.tsx` is not part of this model. It is page layout only.

=== FILE: contribution.dfy ===
/** The cells of the contribution graph, and how the current selection is
    reflected in them. */
module Contribution {

  /** One square of the graph. `date` is an ISO `YYYY-MM-DD` string for a real
      day and the empty string for a padding cell. */
  datatype ContributionDay = ContributionDay(date: string, count: int, selected: bool)

  /** The padding cell used to align weeks to weekday columns. */
  const Placeholder := ContributionDay("", 0, false)

  /** A cell with an empty date is disabled in the grid and never selectable. */
  predicate IsPlaceholder(day: ContributionDay) {
    day.date == ""
  }

  /** `k` padding cells. */
  function Pad(k: nat): (cells: seq<ContributionDay>)
    ensures |cells| == k
    ensures forall i :: 0 <= i < k ==> cells[i] == Placeholder
  {
    seq(k, _ => Placeholder)
  }

  /** The graph's days: each sampled `(date, count)` pair becomes a cell whose
      `selected` flag is the membership of its date in the selection. The
      counts are supplied by the caller: the page draws them at random, anew
      each time the selection changes. */
  function ContributionData(samples: seq<(string, int)>, selectedDates: set<string>): (days: seq<ContributionDay>)
    ensures |days| == |samples|
    ensures forall i :: 0 <= i < |days| ==>
              days[i].date == samples[i].0 && days[i].count == samples[i].1
    ensures forall i :: 0 <= i < |days| ==> (days[i].selected <==> samples[i].0 in selectedDates)
  {
    seq(|samples|, i requires 0 <= i < |samples| =>
      ContributionDay(samples[i].0, samples[i].1, samples[i].0 in selectedDates))
  }
}

=== FILE: lexicographic.dfy ===
/** The default ordering of `Array.prototype.sort`: strings compared
    character by character, a proper prefix before its extensions, and an
    insertion sort over it. */
module Lexicographic {

  /** `a` sorts strictly before `b`. */
  predicate Less(a: string, b: string)
    decreases |a|
  {
    |b| > 0 && (|a| == 0 || a[0] < b[0] || (a[0] == b[0] && Less(a[1..], b[1..])))
  }

  predicate LessEq(a: string, b: string) {
    a == b || Less(a, b)
  }

  lemma {:induction false} LessIrreflexive(a: string)
    ensures !Less(a, a)
    decreases |a|
  {
    if |a| > 0 {
      LessIrreflexive(a[1..]);
    }
  }

  lemma {:induction false} LessTransitive(a: string, b: string, c: string)
    requires Less(a, b) && Less(b, c)
    ensures Less(a, c)
    decreases |a|
  {
    if |a| > 0 && a[0] == b[0] && b[0] == c[0] {
      LessTransitive(a[1..], b[1..], c[1..]);
    }
  }

  /** Any two different strings are ordered one way or the other. */
  lemma {:induction false} LessTotal(a: string, b: string)
    ensures a == b || Less(a, b) || Less(b, a)
    decreases |a|
  {
    if |a| > 0 && |b| > 0 && a[0] == b[0] {
      LessTotal(a[1..], b[1..]);
      if a[1..] == b[1..] {
        assert a == [a[0]] + a[1..] && b == [b[0]] + b[1..];
      }
    }
  }

  lemma LessAsymmetric(a: string, b: string)
    requires Less(a, b)
    ensures !Less(b, a)
  {
    if Less(b, a) {
      LessTransitive(a, b, a);
      LessIrreflexive(a);
    }
  }

  /** Ascending, ties allowed. */
  predicate Sorted(xs: seq<string>) {
    forall i, j :: 0 <= i < j < |xs| ==> LessEq(xs[i], xs[j])
  }

  /** Ascending without repetitions. */
  predicate StrictlyIncreasing(xs: seq<string>) {
    forall i, j :: 0 <= i < j < |xs| ==> Less(xs[i], xs[j])
  }

  /** No element occurs twice, as in an enumeration of a set. */
  predicate Distinct(xs: seq<string>) {
    forall i, j :: 0 <= i < j < |xs| ==> xs[i] != xs[j]
  }

  /** Places `x` before the first element it does not follow. */
  function Insert(x: string, xs: seq<string>): (r: seq<string>)
    requires Sorted(xs)
    ensures Sorted(r)
    ensures multiset(r) == multiset(xs) + multiset{x}
    decreases |xs|
  {
    if |xs| == 0 then [x]
    else if LessEq(x, xs[0]) then
      InsertInFront(x, xs);
      [x] + xs
    else
      var rest := Insert(x, xs[1..]);
      InsertBehind(x, xs, rest);
      [xs[0]] + rest
  }

  lemma InsertInFront(x: string, xs: seq<string>)
    requires Sorted(xs) && |xs| > 0 && LessEq(x, xs[0])
    ensures Sorted([x] + xs)
  {
    forall i, j | 0 <= i < j < |xs| + 1
      ensures LessEq(([x] + xs)[i], ([x] + xs)[j])
    {
      if i == 0 && x != xs[0] && xs[0] != xs[j - 1] {
        LessTransitive(x, xs[0], xs[j - 1]);
      }
    }
  }

  /** When `x` goes after the head, the head still leads: everything the
      rest holds is `x` or came from the sorted tail. */
  lemma InsertBehind(x: string, xs: seq<string>, rest: seq<string>)
    requires Sorted(xs) && |xs| > 0 && !LessEq(x, xs[0])
    requires Sorted(rest) && multiset(rest) == multiset(xs[1..]) + multiset{x}
    ensures Sorted([xs[0]] + rest)
    ensures multiset([xs[0]] + rest) == multiset(xs) + multiset{x}
  {
    assert xs == [xs[0]] + xs[1..];
    LessTotal(x, xs[0]);
    forall j | 0 <= j < |rest|
      ensures LessEq(xs[0], rest[j])
    {
      assert rest[j] in multiset(rest);
      if rest[j] != x {
        assert rest[j] in multiset(xs[1..]);
        var k :| 0 <= k < |xs[1..]| && xs[1..][k] == rest[j];
        assert xs[k + 1] == rest[j];
      }
    }
    forall i, j | 0 <= i < j < |rest| + 1
      ensures LessEq(([xs[0]] + rest)[i], ([xs[0]] + rest)[j])
    {
      if i > 0 {
        assert ([xs[0]] + rest)[i] == rest[i - 1];
      }
    }
  }

  /** Insertion sort: the page's `Array.from(selectedDates).sort()`. */
  function Sort(xs: seq<string>): (r: seq<string>)
    ensures Sorted(r)
    ensures multiset(r) == multiset(xs)
    decreases |xs|
  {
    if |xs| == 0 then []
    else
      assert xs == [xs[0]] + xs[1..];
      Insert(xs[0], Sort(xs[1..]))
  }

  /** Sorting the enumeration of a set yields each element once, in strictly
      ascending order. */
  lemma SortDistinct(xs: seq<string>)
    requires Distinct(xs)
    ensures StrictlyIncreasing(Sort(xs))
    ensures |Sort(xs)| == |xs|
    ensures forall x :: x in Sort(xs) <==> x in xs
  {
    var r := Sort(xs);
    assert |r| == |multiset(r)| == |multiset(xs)| == |xs|;
    forall x
      ensures x in r <==> x in xs
    {
      assert x in r <==> x in multiset(r);
      assert x in xs <==> x in multiset(xs);
    }
    DistinctMultiset(xs);
    forall i, j | 0 <= i < j < |r|
      ensures Less(r[i], r[j])
    {
      if r[i] == r[j] {
        MultiplicityOfRepeated(r, i, j);
      }
    }
  }

  lemma {:induction false} DistinctMultiset(xs: seq<string>)
    requires Distinct(xs)
    ensures forall x :: multiset(xs)[x] <= 1
    decreases |xs|
  {
    if |xs| > 0 {
      DistinctMultiset(xs[1..]);
      assert xs == [xs[0]] + xs[1..];
      assert xs[0] !in xs[1..];
    }
  }

  lemma MultiplicityOfRepeated(xs: seq<string>, i: nat, j: nat)
    requires i < j < |xs| && xs[i] == xs[j]
    ensures multiset(xs)[xs[i]] >= 2
  {
    assert xs == xs[..i] + [xs[i]] + xs[i + 1..j] + [xs[j]] + xs[j + 1..];
  }

  /** A strictly increasing sequence is determined by its elements: whatever
      order the set was enumerated in, the sorted dates are the same. */
  lemma {:induction false} StrictlyIncreasingUnique(a: seq<string>, b: seq<string>)
    requires StrictlyIncreasing(a) && StrictlyIncreasing(b)
    requires forall x :: x in a <==> x in b
    ensures a == b
    decreases |a|
  {
    if |a| > 0 && |b| > 0 {
      assert a[0] in b;
      assert b[0] in a;
      var i :| 0 <= i < |a| && a[i] == b[0];
      var j :| 0 <= j < |b| && b[j] == a[0];
      if i != 0 && j != 0 {
        assert Less(a[0], b[0]);
        assert Less(b[0], a[0]);
        LessAsymmetric(a[0], b[0]);
        assert false;
      }
      assert a[0] == b[0];
      forall x
        ensures x in a[1..] <==> x in b[1..]
      {
        if x in a[1..] {
          var k :| 1 <= k < |a| && a[k] == x;
          LessIrreflexive(a[0]);
          assert x in b;
          var m :| 0 <= m < |b| && b[m] == x;
          assert m != 0;
          assert b[1..][m - 1] == x;
        }
        if x in b[1..] {
          var k :| 1 <= k < |b| && b[k] == x;
          LessIrreflexive(b[0]);
          assert x in a;
          var m :| 0 <= m < |a| && a[m] == x;
          assert m != 0;
          assert a[1..][m - 1] == x;
        }
      }
      StrictlyIncreasingUnique(a[1..], b[1..]);
    } else if |a| > 0 {
      HeadIsMember(a);
      assert false;
    } else if |b| > 0 {
      HeadIsMember(b);
      assert false;
    }
  }

  lemma HeadIsMember(xs: seq<string>)
    requires |xs| > 0
    ensures xs[0] in xs
  {
  }
}

=== FILE: palette.dfy ===
/** The colour class of a graph cell. */
module Palette {

  const Purple := "bg-purple-600 border-purple-700"
  const Gray := "bg-gray-100 border-gray-200"
  const Green200 := "bg-green-200 border-green-300"
  const Green300 := "bg-green-300 border-green-400"
  const Green500 := "bg-green-500 border-green-600"
  const Green700 := "bg-green-700 border-green-800"

  /** A selected cell is purple whatever its count; an unselected one is grey
      for no contributions, three lightening greens for one to three, and the
      darkest green for any other count. */
  function ContributionColor(count: int, selected: bool): (r: string)
    ensures selected ==> r == Purple
    ensures !selected ==> r != Purple
    ensures !selected ==> (r == Gray <==> count == 0)
    ensures !selected ==> (r == Green200 <==> count == 1)
    ensures !selected ==> (r == Green300 <==> count == 2)
    ensures !selected ==> (r == Green500 <==> count == 3)
    ensures !selected ==> (r == Green700 <==> (count < 0 || count > 3))
  {
    if selected then Purple
    else if count == 0 then Gray
    else if count == 1 then Green200
    else if count == 2 then Green300
    else if count == 3 then Green500
    else Green700
  }

  /** The six classes of the legend are pairwise different, so the colour of
      a cell tells its state apart. */
  lemma ClassesDistinct()
    ensures |{Purple, Gray, Green200, Green300, Green500, Green700}| == 6
  {
  }

  /** Two unselected cells share a colour exactly when their counts fall in
      the same band: the same count below four, or both outside 0..3. */
  lemma SameColorSameBand(a: int, b: int)
    ensures ContributionColor(a, false) == ContributionColor(b, false) <==>
              (a == b || ((a < 0 || a > 3) && (b < 0 || b > 3)))
  {
  }
}

=== FILE: script.dfy ===
/** The bash script the page generates from the selected dates: a fixed
    header with a count banner, one commit block per date in ascending order,
    and a fixed trailer. The template is written here as the list of its
    lines; rendered with newlines between them it is the page's template
    text. Lines longer than about forty characters are written as two
    literals joined, which keeps the proofs about their characters small. */
module Script {
  import opened Text
  import opened Lexicographic
  import opened Template
  import opened Sequences

  /** `date.replace(/-/g, "")`: the date with every hyphen removed. */
  function StripHyphens(date: string): (r: string)
    ensures '-' !in r
    ensures forall c :: c != '-' ==> multiset(r)[c] == multiset(date)[c]
    decreases |date|
  {
    if |date| == 0 then ""
    else
      assert date == [date[0]] + date[1..];
      (if date[0] == '-' then "" else [date[0]]) + StripHyphens(date[1..])
  }

  /** The marker file a date's commit creates, stages and removes. */
  function FileName(date: string): string {
    "temp_file_" + StripHyphens(date) + ".txt"
  }

  /** The author and committer timestamp: noon on the date. */
  function Timestamp(date: string): string {
    date + "T12:00:00"
  }

  function CommitLine(date: string): string {
    "GIT_AUTHOR_DATE=\"" + Timestamp(date) + "\" GIT_COMMITTER_DATE=\"" + Timestamp(date)
      + "\" git commit -m \"Time travel commit for " + date + "\""
  }

  /** The lines of one date's block; the first is empty, so every block opens
      with a blank line. */
  function BlockLines(date: string): seq<string> {
    [ "",
      "# Commit for " + date,
      "echo \"Fake commit for " + date + "\" > " + FileName(date),
      "git add " + FileName(date),
      CommitLine(date),
      "rm " + FileName(date) ]
  }

  /** One block per date, in the dates' order. */
  function Blocks(dates: seq<string>): (blocks: seq<seq<string>>)
    ensures |blocks| == |dates|
    ensures forall i :: 0 <= i < |dates| ==> blocks[i] == BlockLines(dates[i])
  {
    seq(|dates|, i requires 0 <= i < |dates| => BlockLines(dates[i]))
  }

  /** The commit command of each date, in the dates' order. */
  function Commits(dates: seq<string>): (commands: seq<string>)
    ensures |commands| == |dates|
    ensures forall i :: 0 <= i < |dates| ==> commands[i] == CommitLine(dates[i])
  {
    seq(|dates|, i requires 0 <= i < |dates| => CommitLine(dates[i]))
  }

  function Banner(count: nat): string {
    "echo \"Creating fake commits for " + Decimal(count) + " selected dates...\""
  }

  function Created(count: nat): string {
    "echo \"\U{2705} Created " + Decimal(count) + " fake commits!\""
  }

  /** The interpreter line and the title comments. */
  function Preamble(): seq<string> {
    [ "#!/bin/bash",
      "# GitHub Time Travel Script",
      "# This script creates fake commits " + "for selected dates" ]
  }

  /** Stop unless run at the top of a git working tree. */
  function RepositoryCheck(): seq<string> {
    [ "# Make sure you're in a git repository",
      "if [ ! -d \".git\" ]; then",
      "    echo \"Error: Not a git repository. " + "Run 'git init' first.\"",
      "    exit 1",
      "fi" ]
  }

  /** The lines before the blocks; the last is the blank line after the banner. */
  function HeaderLines(count: nat): seq<string> {
    Preamble() + [""] + RepositoryCheck() + ["", Banner(count), ""]
  }

  function Reminders(): seq<string> {
    [ "echo \"\U{1F4DD} Remember to push your " + "changes: git push origin main\"",
      "echo \"\U{26A0}\U{FE0F}  Warning: " + "This is for educational purposes only!\"" ]
  }

  /** The lines after the blocks; the text ends with a newline, so the last
      line is empty. */
  function TrailerLines(count: nat): seq<string> {
    ["", Created(count)] + Reminders() + [""]
  }

  /** The script for dates already in the order they are to be committed. */
  function Script(dates: seq<string>): string {
    Render(HeaderLines(|dates|), Blocks(dates), TrailerLines(|dates|))
  }

  /** `generateScript`: the selection, enumerated in any order, sorted and
      rendered. */
  function GenerateScript(selection: seq<string>): string {
    Script(Sort(selection))
  }

  /** ISO `YYYY-MM-DD`: four, two and two digits separated by hyphens. */
  predicate IsIsoDate(date: string) {
    && |date| == 10
    && date[4] == '-' && date[7] == '-'
    && forall i :: 0 <= i < 10 && i != 4 && i != 7 ==> IsDigit(date[i])
  }

  // ---------------------------------------------------------------------
  // The marker file name

  lemma {:induction false} StripHyphensAppend(a: string, b: string)
    ensures StripHyphens(a + b) == StripHyphens(a) + StripHyphens(b)
    decreases |a|
  {
    if |a| == 0 {
      assert a + b == b;
    } else {
      assert (a + b)[1..] == a[1..] + b;
      StripHyphensAppend(a[1..], b);
    }
  }

  /** A text without hyphens is left as it is. */
  lemma {:induction false} StripHyphensKeeps(s: string)
    requires '-' !in s
    ensures StripHyphens(s) == s
    decreases |s|
  {
    if |s| > 0 {
      assert '-' !in s[1..] by {
        forall k | 0 <= k < |s[1..]| ensures s[1..][k] != '-' {
          assert s[1..][k] == s[k + 1];
        }
      }
      StripHyphensKeeps(s[1..]);
      assert s == [s[0]] + s[1..];
    }
  }

  /** Stripping twice is stripping once. */
  lemma StripHyphensIdempotent(s: string)
    ensures StripHyphens(StripHyphens(s)) == StripHyphens(s)
  {
    StripHyphensKeeps(StripHyphens(s));
  }

  lemma StripHyphensOfHyphen()
    ensures StripHyphens("-") == ""
  {
    assert "-"[1..] == "";
  }

  /** A hyphen between two texts disappears and the texts are stripped. */
  lemma StripHyphensAround(a: string, b: string)
    ensures StripHyphens(a + "-" + b) == StripHyphens(a) + StripHyphens(b)
  {
    StripHyphensOfHyphen();
    StripHyphensAppend(a, "-");
    StripHyphensAppend(a + "-", b);
  }

  /** Stripping `y-m-d` for hyphen-free parts joins the parts. */
  lemma StripHyphensOfParts(y: string, m: string, d: string)
    requires '-' !in y && '-' !in m && '-' !in d
    ensures StripHyphens(y + "-" + m + "-" + d) == y + m + d
  {
    StripHyphensKeeps(y);
    StripHyphensKeeps(m);
    StripHyphensKeeps(d);
    StripHyphensAround(y, m);
    StripHyphensAround(y + "-" + m, d);
  }

  lemma IsoDateParts(date: string)
    requires IsIsoDate(date)
    ensures date == date[..4] + "-" + date[5..7] + "-" + date[8..]
    ensures '-' !in date[..4] && '-' !in date[5..7] && '-' !in date[8..]
    ensures AllDigits(date[..4] + date[5..7] + date[8..])
  {
    assert forall k :: 0 <= k < 4 ==> date[..4][k] == date[k];
    assert forall k :: 0 <= k < 2 ==> date[5..7][k] == date[k + 5];
    assert forall k :: 0 <= k < 2 ==> date[8..][k] == date[k + 8];
    var r := date[..4] + date[5..7] + date[8..];
    forall k | 0 <= k < 8 ensures IsDigit(r[k]) {
      if k < 4 { assert r[k] == date[k]; }
      else if k < 6 { assert r[k] == date[k + 1]; }
      else { assert r[k] == date[k + 2]; }
    }
  }

  /** For an ISO date the stripped form is its eight digits `YYYYMMDD`. */
  lemma StripHyphensOfIsoDate(date: string)
    requires IsIsoDate(date)
    ensures StripHyphens(date) == date[..4] + date[5..7] + date[8..]
    ensures |StripHyphens(date)| == 8 && AllDigits(StripHyphens(date))
  {
    IsoDateParts(date);
    StripHyphensOfParts(date[..4], date[5..7], date[8..]);
  }

  /** Different ISO dates get different marker files, so no block touches
      another block's file. */
  lemma FileNameInjective(a: string, b: string)
    requires IsIsoDate(a) && IsIsoDate(b)
    requires FileName(a) == FileName(b)
    ensures a == b
  {
    StripHyphensOfIsoDate(a);
    StripHyphensOfIsoDate(b);
    var sa, sb := StripHyphens(a), StripHyphens(b);
    assert sa == FileName(a)[10..18];
    assert sb == FileName(b)[10..18];
    forall k | 0 <= k < 10 ensures a[k] == b[k] {
      if k < 4 { assert a[k] == sa[k] && b[k] == sb[k]; }
      else if k == 4 || k == 7 { }
      else if k < 7 { assert a[k] == sa[k - 1] && b[k] == sb[k - 1]; }
      else { assert a[k] == sa[k - 2] && b[k] == sb[k - 2]; }
    }
  }

  lemma IsoDateHasNoNewline(date: string)
    requires IsIsoDate(date)
    ensures NoNewline(date)
  {
    forall k | 0 <= k < 10 ensures date[k] != '\n' {
      if k != 4 && k != 7 {
        assert IsDigit(date[k]);
      }
    }
  }

  // ---------------------------------------------------------------------
  // The shape of one block

  lemma NoNewlineConcat(a: string, b: string)
    requires NoNewline(a) && NoNewline(b)
    ensures NoNewline(a + b)
  {
    assert forall c :: c in a + b ==> c in a || c in b;
  }

  lemma FileNameHasNoNewline(date: string)
    requires NoNewline(date)
    ensures NoNewline(FileName(date))
  {
    var stripped := StripHyphens(date);
    assert multiset(stripped)['\n'] == multiset(date)['\n'] == 0;
    assert NoNewline(stripped);
    NoNewlineConcat("temp_file_", stripped);
    NoNewlineConcat("temp_file_" + stripped, ".txt");
  }

  lemma CommitLineHasNoNewline(date: string)
    requires NoNewline(date)
    ensures NoNewline(CommitLine(date))
  {
    var stamp := Timestamp(date);
    NoNewlineConcat(date, "T12:00:00");
    var a := "GIT_AUTHOR_DATE=\"" + stamp;
    NoNewlineConcat("GIT_AUTHOR_DATE=\"", stamp);
    NoNewlineConcat(a, "\" GIT_COMMITTER_DATE=\"");
    NoNewlineConcat(a + "\" GIT_COMMITTER_DATE=\"", stamp);
    var b := a + "\" GIT_COMMITTER_DATE=\"" + stamp;
    NoNewlineConcat(b, "\" git commit -m \"Time travel commit for ");
    NoNewlineConcat(b + "\" git commit -m \"Time travel commit for ", date);
    NoNewlineConcat(b + "\" git commit -m \"Time travel commit for " + date, "\"");
  }

  /** For a date without newlines, each block line is a single line of text. */
  lemma BlockLinesHaveNoNewline(date: string)
    requires NoNewline(date)
    ensures forall i :: 0 <= i < |BlockLines(date)| ==> NoNewline(BlockLines(date)[i])
  {
    var file := FileName(date);
    FileNameHasNoNewline(date);
    CommitLineHasNoNewline(date);
    NoNewlineConcat("# Commit for ", date);
    NoNewlineConcat("echo \"Fake commit for ", date);
    NoNewlineConcat("echo \"Fake commit for " + date, "\" > ");
    NoNewlineConcat("echo \"Fake commit for " + date + "\" > ", file);
    NoNewlineConcat("git add ", file);
    NoNewlineConcat("rm ", file);
  }

  /** A block holds exactly one commit command, the one for its date. */
  lemma CommitCommandsOfBlock(date: string)
    ensures CommitCommands(BlockLines(date)) == [CommitLine(date)]
  {
    var ls := BlockLines(date);
    var p := "GIT_AUTHOR_DATE=\"";
    StartsWithDiffering(ls[1], p);
    StartsWithDiffering(ls[2], p);
    StartsWithDiffering(ls[3], p);
    StartsWithDiffering(ls[5], p);
    assert ls[4][..|p|] == p;
    assert ls[6..] == [];
    forall k | 0 <= k < 6 ensures ls[k..][1..] == ls[k + 1..] {}
    assert CommitCommands(ls[5..]) == [];
    assert CommitCommands(ls[4..]) == [ls[4]];
    assert CommitCommands(ls[3..]) == [ls[4]];
    assert CommitCommands(ls[2..]) == [ls[4]];
    assert CommitCommands(ls[1..]) == [ls[4]];
    assert CommitCommands(ls[0..]) == [ls[4]];
    assert ls[0..] == ls;
  }

  /** For dates without newlines the blocks are non-empty groups of single
      lines, each holding its date's commit command. */
  lemma BlocksShape(dates: seq<string>)
    requires forall i :: 0 <= i < |dates| ==> NoNewline(dates[i])
    ensures NonEmptyGroups(Blocks(dates)) && GroupsOfLines(Blocks(dates))
    ensures forall i :: 0 <= i < |dates| ==> CommitCommands(Blocks(dates)[i]) == [Commits(dates)[i]]
  {
    var blocks := Blocks(dates);
    forall i | 0 <= i < |dates|
      ensures |blocks[i]| >= 1
      ensures forall k :: 0 <= k < |blocks[i]| ==> NoNewline(blocks[i][k])
      ensures CommitCommands(blocks[i]) == [Commits(dates)[i]]
    {
      BlockLinesHaveNoNewline(dates[i]);
      CommitCommandsOfBlock(dates[i]);
    }
  }

  // ---------------------------------------------------------------------
  // The fixed lines

  lemma BannerPlain(count: nat)
    ensures PlainLine(Banner(count))
  {
    var n := Decimal(count);
    var tail := " selected dates...\"";
    NoNewlineConcat(n, tail);
    NoNewlineConcat("echo \"Creating fake commits for ", n + tail);
    assert Banner(count) == "echo \"Creating fake commits for " + (n + tail);
    PlainStart(Banner(count));
  }

  lemma CreatedPlain(count: nat)
    ensures PlainLine(Created(count))
  {
    var n := Decimal(count);
    var tail := " fake commits!\"";
    NoNewlineConcat(n, tail);
    NoNewlineConcat("echo \"\U{2705} Created ", n + tail);
    assert Created(count) == "echo \"\U{2705} Created " + (n + tail);
    PlainStart(Created(count));
  }

  lemma PreamblePlain()
    ensures AllPlain(Preamble())
  {
    var ls := Preamble();
    PlainStart(ls[0]);
    PlainStart(ls[1]);
    PlainStart(ls[2]);
  }

  lemma RepositoryCommentPlain()
    ensures PlainLine(RepositoryCheck()[0])
  {
    PlainStart(RepositoryCheck()[0]);
  }

  lemma NotRepositoryPlain()
    ensures PlainLine(RepositoryCheck()[2])
  {
    PlainStart(RepositoryCheck()[2]);
  }

  lemma RepositoryCheckPlain()
    ensures AllPlain(RepositoryCheck())
  {
    var ls := RepositoryCheck();
    RepositoryCommentPlain();
    PlainStart(ls[1]);
    NotRepositoryPlain();
    PlainStart(ls[3]);
    PlainStart(ls[4]);
  }

  lemma PushReminderPlain()
    ensures PlainLine(Reminders()[0])
  {
    PlainStart(Reminders()[0]);
  }

  lemma RemindersPlain()
    ensures AllPlain(Reminders())
  {
    var ls := Reminders();
    PushReminderPlain();
    PlainStart(ls[1]);
  }

  lemma BlankPlain()
    ensures AllPlain([""])
  {
    assert PlainLine([""][0]);
  }

  /** No header line holds a newline or runs `git commit`. */
  lemma HeaderLinesPlain(count: nat)
    ensures AllPlain(HeaderLines(count))
  {
    PreamblePlain();
    RepositoryCheckPlain();
    BlankPlain();
    BannerPlain(count);
    assert AllPlain(["", Banner(count), ""]);
    AllPlainAppend(Preamble(), [""]);
    AllPlainAppend(Preamble() + [""], RepositoryCheck());
    AllPlainAppend(Preamble() + [""] + RepositoryCheck(), ["", Banner(count), ""]);
  }

  /** No trailer line holds a newline or runs `git commit`. */
  lemma TrailerLinesPlain(count: nat)
    ensures AllPlain(TrailerLines(count))
  {
    RemindersPlain();
    BlankPlain();
    CreatedPlain(count);
    assert AllPlain(["", Created(count)]);
    AllPlainAppend(["", Created(count)], Reminders());
    AllPlainAppend(["", Created(count)] + Reminders(), [""]);
  }

  lemma HeaderBanner(count: nat)
    ensures |HeaderLines(count)| == 12 && HeaderLines(count)[10] == Banner(count)
  {
  }

  lemma TrailerCreated(count: nat)
    ensures |TrailerLines(count)| == 5 && TrailerLines(count)[1] == Created(count)
  {
  }

  // ---------------------------------------------------------------------
  // The shape of the script

  /** Read line by line, the script is the header, then the six lines of each
      date's block in the given order, then the trailer; with no dates the
      empty join leaves one extra blank line. */
  lemma ScriptLines(dates: seq<string>)
    requires forall i :: 0 <= i < |dates| ==> NoNewline(dates[i])
    ensures Lines(Script(dates)) ==
              HeaderLines(|dates|)
              + (if |dates| == 0 then [""] else Flatten(Blocks(dates)))
              + TrailerLines(|dates|)
  {
    var header, trailer := HeaderLines(|dates|), TrailerLines(|dates|);
    HeaderLinesPlain(|dates|);
    TrailerLinesPlain(|dates|);
    HeaderBanner(|dates|);
    TrailerCreated(|dates|);
    BlocksShape(dates);
    TemplateLines(header, Blocks(dates), trailer);
  }

  /** The commit commands of the script, in order, are one per date, in the
      dates' order. */
  lemma ScriptCommits(dates: seq<string>)
    requires forall i :: 0 <= i < |dates| ==> NoNewline(dates[i])
    ensures CommitCommands(Lines(Script(dates))) == Commits(dates)
  {
    ScriptLines(dates);
    HeaderLinesPlain(|dates|);
    TrailerLinesPlain(|dates|);
    BlocksShape(dates);
    TemplateCommits(HeaderLines(|dates|), Blocks(dates), TrailerLines(|dates|), Commits(dates));
  }

  lemma PositionsInTemplate(header: seq<string>, middle: seq<string>, trailer: seq<string>)
    requires |header| == 12 && |middle| >= 1 && |trailer| == 5
    ensures var lines := header + middle + trailer;
            |lines| >= 18 && lines[10] == header[10] && lines[|lines| - 4] == trailer[1]
  {
  }

  /** Line 11 of `lines` is the banner and the fourth line from the end the
      "Created" line, both for `count` dates. */
  predicate ReportsCount(lines: seq<string>, count: nat) {
    |lines| >= 18 && lines[10] == Banner(count) && lines[|lines| - 4] == Created(count)
  }

  /** Both count lines of the script report the number of dates, whatever
      the dates contain. */
  lemma ScriptBanners(dates: seq<string>)
    ensures ReportsCount(Lines(Script(dates)), |dates|)
  {
    var header, trailer := HeaderLines(|dates|), TrailerLines(|dates|);
    HeaderLinesPlain(|dates|);
    TrailerLinesPlain(|dates|);
    HeaderBanner(|dates|);
    TrailerCreated(|dates|);
    TemplateFrame(header, Blocks(dates), trailer);
    PositionsInTemplate(header, Lines(Join(GroupTexts(Blocks(dates)), "\n")), trailer);
  }

  // ---------------------------------------------------------------------
  // The generated script as a function of the selection

  lemma {:induction false} DistinctCardinality(xs: seq<string>)
    requires Distinct(xs)
    ensures |set x | x in xs| == |xs|
    decreases |xs|
  {
    if |xs| > 0 {
      DistinctCardinality(xs[1..]);
      assert (set x | x in xs) == (set x | x in xs[1..]) + {xs[0]};
      assert xs[0] !in xs[1..];
    }
  }

  /** The dates the script commits: each selected date once, ascending. */
  lemma SortedSelection(selectedDates: set<string>, order: seq<string>)
    requires Distinct(order)
    requires forall d :: d in order <==> d in selectedDates
    ensures StrictlyIncreasing(Sort(order))
    ensures |Sort(order)| == |selectedDates|
    ensures forall d :: d in Sort(order) <==> d in selectedDates
  {
    SortDistinct(order);
    DistinctCardinality(order);
    assert (set x | x in order) == selectedDates;
  }

  /** Sorting an enumeration of the selection yields one date per selected
      date. */
  lemma SortedSelectionSize(selectedDates: set<string>, order: seq<string>)
    requires Distinct(order)
    requires forall d :: d in order <==> d in selectedDates
    ensures |Sort(order)| == |selectedDates|
  {
    SortedSelection(selectedDates, order);
  }

  /** The sorted dates of a newline-free selection: as many as selected, and
      each a single line of text. */
  lemma SortedDatesAreLines(selectedDates: set<string>, order: seq<string>)
    requires Distinct(order)
    requires forall d :: d in order <==> d in selectedDates
    requires forall d :: d in selectedDates ==> NoNewline(d)
    ensures |Sort(order)| == |selectedDates|
    ensures forall i :: 0 <= i < |Sort(order)| ==> NoNewline(Sort(order)[i])
  {
    var dates := Sort(order);
    SortedSelection(selectedDates, order);
    forall i | 0 <= i < |dates| ensures NoNewline(dates[i]) {
      assert dates[i] in dates;
    }
  }

  /** The script is a function of the selection alone: any two enumerations
      of the same selected dates yield the same text. */
  lemma GenerateScriptDependsOnlyOnSelection(selectedDates: set<string>, order1: seq<string>, order2: seq<string>)
    requires Distinct(order1) && Distinct(order2)
    requires forall d :: d in order1 <==> d in selectedDates
    requires forall d :: d in order2 <==> d in selectedDates
    ensures GenerateScript(order1) == GenerateScript(order2)
  {
    SortedSelection(selectedDates, order1);
    SortedSelection(selectedDates, order2);
    StrictlyIncreasingUnique(Sort(order1), Sort(order2));
  }

  /** The generated script's commit commands are one per selected date, each
      date once, in strictly ascending order. */
  lemma GenerateScriptCommitsSelection(selectedDates: set<string>, order: seq<string>)
    requires Distinct(order)
    requires forall d :: d in order <==> d in selectedDates
    requires forall d :: d in selectedDates ==> NoNewline(d)
    ensures var dates := Sort(order);
            && CommitCommands(Lines(GenerateScript(order))) == Commits(dates)
            && |dates| == |selectedDates|
            && (forall d :: d in dates <==> d in selectedDates)
            && StrictlyIncreasing(dates)
  {
    SortedSelection(selectedDates, order);
    SortedDatesAreLines(selectedDates, order);
    ScriptCommits(Sort(order));
  }

  /** The dates the page offers are ISO dates, so for every selection the
      page can make the generated script commits each selected date once, in
      strictly ascending order. */
  lemma GenerateScriptCommitsIsoSelection(selectedDates: set<string>, order: seq<string>)
    requires Distinct(order)
    requires forall d :: d in order <==> d in selectedDates
    requires forall d :: d in selectedDates ==> IsIsoDate(d)
    ensures var dates := Sort(order);
            && CommitCommands(Lines(GenerateScript(order))) == Commits(dates)
            && |dates| == |selectedDates|
            && (forall d :: d in dates <==> d in selectedDates)
            && StrictlyIncreasing(dates)
  {
    forall d | d in selectedDates ensures NoNewline(d) {
      IsoDateHasNoNewline(d);
    }
    GenerateScriptCommitsSelection(selectedDates, order);
  }

  /** Both count lines of the generated script report the number of
      selected dates. */
  lemma GenerateScriptReportsCount(selectedDates: set<string>, order: seq<string>)
    requires Distinct(order)
    requires forall d :: d in order <==> d in selectedDates
    ensures ReportsCount(Lines(GenerateScript(order)), |selectedDates|)
  {
    var dates := Sort(order);
    SortedSelectionSize(selectedDates, order);
    ScriptBanners(dates);
  }

  predicate EndsWith(s: string, suffix: string) {
    |suffix| <= |s| && s[|s| - |suffix|..] == suffix
  }

  /** For any date the echo, `git add` and `rm` lines of its block all end
      with the date's marker file, and the echo line writes the date into
      it. */
  lemma BlockSharesFile(date: string)
    ensures var ls := BlockLines(date);
            var file := FileName(date);
            && EndsWith(ls[2], "\" > " + file) && StartsWith(ls[2], "echo \"Fake commit for " + date)
            && EndsWith(ls[3], file) && EndsWith(ls[5], file)
  {
    var file := FileName(date);
    var ls := BlockLines(date);
    var head := "echo \"Fake commit for " + date;
    assert ls[2] == head + ("\" > " + file);
    assert ls[2][..|head|] == head;
    assert ls[3] == "git add " + file;
    assert ls[5] == "rm " + file;
  }

  /** For ISO dates each block is self-consistent: the echo, `git add` and
      `rm` lines all end with the same marker file, `temp_file_YYYYMMDD.txt`,
      whose date part holds digits only. */
  lemma BlockConsistent(date: string)
    requires IsIsoDate(date)
    ensures var ls := BlockLines(date);
            var file := FileName(date);
            && file == "temp_file_" + (date[..4] + date[5..7] + date[8..]) + ".txt"
            && AllDigits(file[10..18])
            && EndsWith(ls[2], file) && EndsWith(ls[3], file) && EndsWith(ls[5], file)
  {
    StripHyphensOfIsoDate(date);
    var file := FileName(date);
    var ls := BlockLines(date);
    assert file[10..18] == StripHyphens(date);
    BlockSharesFile(date);
    assert ls[2] == ("echo \"Fake commit for " + date + "\" > ") + file;
  }

  /** A date's commit command pins both the author date, right after
      `GIT_AUTHOR_DATE="`, and the committer date, right after the closing
      quote and `GIT_COMMITTER_DATE="`, to noon on that date, and its message
      ends with the date. */
  lemma CommitPinsDates(date: string)
    ensures var line := CommitLine(date);
            var stamp := date + "T12:00:00";
            var author := |"GIT_AUTHOR_DATE=\""|;
            var committer := author + |stamp| + |"\" GIT_COMMITTER_DATE=\""|;
            && IsCommitCommand(line)
            && line[author..author + |stamp|] == stamp
            && line[author + |stamp|..committer] == "\" GIT_COMMITTER_DATE=\""
            && |line| == committer + |stamp| + |"\" git commit -m \"Time travel commit for "| + |date| + 1
            && line[committer..committer + |stamp|] == stamp
            && line[committer + |stamp|] == '"'
            && EndsWith(line, date + "\"")
  {
    var line := CommitLine(date);
    var stamp := Timestamp(date);
    var p := "GIT_AUTHOR_DATE=\"";
    var sep := "\" GIT_COMMITTER_DATE=\"";
    var msg := "\" git commit -m \"Time travel commit for ";
    var a := p + stamp;
    var b := a + sep + stamp;
    assert line == b + msg + date + "\"";
    assert line[..|p|] == p;
    assert line[|p|..|p| + |stamp|] == a[|p|..] == stamp;
    assert line[|a|..|a| + |sep|] == (a + sep)[|a|..] == sep;
    assert line[|a| + |sep|..|b|] == b[|a| + |sep|..] == stamp;
    assert line[|b|] == msg[0] == '"';
    assert line[|line| - |date| - 1..] == date + "\"";
  }
}

=== FILE: selection.dfy ===
/** The set of selected dates and the two ways the page changes it. */
module Selection {
  import opened Contribution

  /** Clicking a cell: an empty date (a padding cell) changes nothing;
      otherwise the date leaves the selection if it was in it and joins it if
      it was not. */
  function Toggle(selectedDates: set<string>, date: string): (r: set<string>)
    ensures date == "" ==> r == selectedDates
    ensures date != "" ==> (date in r <==> date !in selectedDates)
    ensures forall other :: other != date ==> (other in r <==> other in selectedDates)
  {
    if date == "" then selectedDates
    else if date in selectedDates then selectedDates - {date}
    else selectedDates + {date}
  }

  /** The "Clear Selection" button: the selection becomes empty whatever it held. */
  function Clear(selectedDates: set<string>): (r: set<string>)
    ensures |r| == 0
    ensures forall date :: date !in r
  {
    {}
  }

  /** Toggling the same date twice restores the selection. */
  lemma ToggleTwice(selectedDates: set<string>, date: string)
    ensures Toggle(Toggle(selectedDates, date), date) == selectedDates
  {
  }

  /** A click on a real date changes the number of selected dates by exactly one. */
  lemma ToggleSize(selectedDates: set<string>, date: string)
    ensures date == "" ==> |Toggle(selectedDates, date)| == |selectedDates|
    ensures date != "" && date in selectedDates ==> |Toggle(selectedDates, date)| == |selectedDates| - 1
    ensures date != "" && date !in selectedDates ==> |Toggle(selectedDates, date)| == |selectedDates| + 1
  {
  }

  /** Clicks on different dates do not interfere: their order does not matter. */
  lemma ToggleCommutes(selectedDates: set<string>, a: string, b: string)
    ensures Toggle(Toggle(selectedDates, a), b) == Toggle(Toggle(selectedDates, b), a)
  {
  }

  /** Seen through the graph: the page rebuilds the graph after every
      click, drawing fresh counts for the same dates. Toggling `date` flips
      the highlight of exactly the cells carrying that date, keeps every
      cell's date, and shows the newly drawn counts. */
  lemma ToggleFlipsOnlyItsCells(before: seq<(string, int)>, after: seq<(string, int)>,
                                selectedDates: set<string>, date: string)
    requires |after| == |before|
    requires forall i :: 0 <= i < |before| ==> after[i].0 == before[i].0
    ensures var prior := ContributionData(before, selectedDates);
            var rebuilt := ContributionData(after, Toggle(selectedDates, date));
            |rebuilt| == |prior| &&
            forall i :: 0 <= i < |rebuilt| ==>
              rebuilt[i].date == prior[i].date && rebuilt[i].count == after[i].1 &&
              (rebuilt[i].selected <==>
                 if date != "" && prior[i].date == date then !prior[i].selected else prior[i].selected)
  {
  }

  /** After clearing, no cell of the graph is highlighted, whatever counts
      the rebuilt graph draws. */
  lemma ClearUnhighlightsAll(samples: seq<(string, int)>, selectedDates: set<string>)
    ensures forall day :: day in ContributionData(samples, Clear(selectedDates)) ==> !day.selected
  {
  }
}

=== FILE: sequences.dfy ===
/** Facts about sequences of sequences shared by the week grid and the
    script template. */
module Sequences {

  /** The inner sequences one after another. */
  function Flatten<T>(parts: seq<seq<T>>): (flat: seq<T>)
    decreases |parts|
  {
    if |parts| == 0 then [] else parts[0] + Flatten(parts[1..])
  }

  lemma {:induction false} FlattenAppend<T>(a: seq<seq<T>>, b: seq<seq<T>>)
    ensures Flatten(a + b) == Flatten(a) + Flatten(b)
    decreases |a|
  {
    if |a| == 0 {
      assert a + b == b;
    } else {
      assert (a + b)[1..] == a[1..] + b;
      FlattenAppend(a[1..], b);
    }
  }

  /** Appending one more part appends its elements. */
  lemma FlattenPush<T>(parts: seq<seq<T>>, part: seq<T>)
    ensures Flatten(parts + [part]) == Flatten(parts) + part
  {
    FlattenAppend(parts, [part]);
    assert [part][1..] == [];
    assert Flatten([part]) == part + [];
  }

  lemma AppendAssociative<T>(a: seq<T>, b: seq<T>, c: seq<T>)
    ensures a + b + c == a + (b + c)
  {
  }

  lemma Regroup<T>(a: seq<T>, b: seq<T>, c: seq<T>, d: seq<T>)
    ensures a + b + c + d == a + (b + c + d)
  {
  }
}

=== FILE: template.dfy ===
/** The shape of the generated script, independent of its fixed text: header
    lines, then a group of lines per date, then trailer lines, written as one
    text with newlines between them; and the commit commands found in a list
    of lines. */
module Template {
  import opened Text
  import opened Sequences

  /** Each group joined with newlines. */
  function GroupTexts(groups: seq<seq<string>>): (texts: seq<string>)
    ensures |texts| == |groups|
    ensures forall i :: 0 <= i < |groups| ==> texts[i] == Join(groups[i], "\n")
  {
    seq(|groups|, i requires 0 <= i < |groups| => Join(groups[i], "\n"))
  }

  /** The template text: the header, the groups' texts joined with newlines,
      and the trailer, separated by newlines. */
  function Render(header: seq<string>, groups: seq<seq<string>>, trailer: seq<string>): string {
    Join(header, "\n") + "\n" + Join(GroupTexts(groups), "\n") + "\n" + Join(trailer, "\n")
  }

  /** Every line of every group is a single line of text. */
  predicate GroupsOfLines(groups: seq<seq<string>>) {
    forall i, k :: 0 <= i < |groups| && 0 <= k < |groups[i]| ==> NoNewline(groups[i][k])
  }

  predicate NonEmptyGroups(groups: seq<seq<string>>) {
    forall i :: 0 <= i < |groups| ==> |groups[i]| >= 1
  }

  predicate StartsWith(s: string, prefix: string) {
    |prefix| <= |s| && s[..|prefix|] == prefix
  }

  /** A line that runs `git commit`: it starts by setting the author date. */
  predicate IsCommitCommand(line: string) {
    StartsWith(line, "GIT_AUTHOR_DATE=\"")
  }

  /** The commit commands among `lines`, in order. */
  function CommitCommands(lines: seq<string>): (commands: seq<string>)
    decreases |lines|
  {
    if |lines| == 0 then []
    else (if IsCommitCommand(lines[0]) then [lines[0]] else []) + CommitCommands(lines[1..])
  }

  /** A line of fixed text: one line, and not a commit command. */
  predicate PlainLine(line: string) {
    NoNewline(line) && !IsCommitCommand(line)
  }

  predicate AllPlain(lines: seq<string>) {
    forall i :: 0 <= i < |lines| ==> PlainLine(lines[i])
  }

  // ---------------------------------------------------------------------
  // Lines

  lemma FlattenNonEmpty(groups: seq<seq<string>>)
    requires |groups| >= 1 && NonEmptyGroups(groups)
    ensures |Flatten(groups)| >= |groups[0]| >= 1
  {
  }

  /** Joining each group and then joining the texts is joining all the lines. */
  lemma {:induction false} JoinFlatten(groups: seq<seq<string>>)
    requires |groups| >= 1 && NonEmptyGroups(groups)
    ensures Join(GroupTexts(groups), "\n") == Join(Flatten(groups), "\n")
    decreases |groups|
  {
    var texts := GroupTexts(groups);
    if |groups| == 1 {
      assert groups[1..] == [];
      assert Flatten(groups) == groups[0];
    } else {
      var rest := groups[1..];
      assert texts[1..] == GroupTexts(rest);
      JoinFlatten(rest);
      FlattenNonEmpty(rest);
      JoinAppend(groups[0], Flatten(rest), "\n");
    }
  }

  lemma {:induction false} FlattenOfLines(groups: seq<seq<string>>)
    requires GroupsOfLines(groups)
    ensures forall k :: 0 <= k < |Flatten(groups)| ==> NoNewline(Flatten(groups)[k])
    decreases |groups|
  {
    if |groups| > 0 {
      assert GroupsOfLines(groups[1..]) by {
        forall i, k | 0 <= i < |groups[1..]| && 0 <= k < |groups[1..][i]|
          ensures NoNewline(groups[1..][i][k])
        {
          assert groups[1..][i] == groups[i + 1];
        }
      }
      FlattenOfLines(groups[1..]);
      var a, b := groups[0], Flatten(groups[1..]);
      forall k | 0 <= k < |a + b| ensures NoNewline((a + b)[k]) {
        if k >= |a| {
          assert (a + b)[k] == b[k - |a|];
        }
      }
    }
  }

  /** The groups' texts joined with newlines, followed by a newline and more
      text, split into lines. */
  lemma GroupLines(groups: seq<seq<string>>, tail: string)
    requires NonEmptyGroups(groups) && GroupsOfLines(groups)
    ensures Lines(Join(GroupTexts(groups), "\n") + "\n" + tail) ==
              (if |groups| == 0 then [""] else Flatten(groups)) + Lines(tail)
  {
    if |groups| == 0 {
      assert Join(GroupTexts(groups), "\n") + "\n" + tail == "" + "\n" + tail;
      LinesAfterLine("", tail);
    } else {
      JoinFlatten(groups);
      FlattenOfLines(groups);
      FlattenNonEmpty(groups);
      LinesAfterJoin(Flatten(groups), tail);
    }
  }

  /** Read line by line, the rendered template is the header, every group's
      lines in order, and the trailer. With no groups the empty join leaves a
      blank line between header and trailer. */
  lemma TemplateLines(header: seq<string>, groups: seq<seq<string>>, trailer: seq<string>)
    requires |header| >= 1 && |trailer| >= 1
    requires forall i :: 0 <= i < |header| ==> NoNewline(header[i])
    requires forall i :: 0 <= i < |trailer| ==> NoNewline(trailer[i])
    requires NonEmptyGroups(groups) && GroupsOfLines(groups)
    ensures Lines(Render(header, groups, trailer)) ==
              header + (if |groups| == 0 then [""] else Flatten(groups)) + trailer
  {
    var middle := Join(GroupTexts(groups), "\n");
    var tail := Join(trailer, "\n");
    var rest := middle + "\n" + tail;
    Regroup(Join(header, "\n") + "\n", middle, "\n", tail);
    LinesAfterJoin(header, rest);
    GroupLines(groups, tail);
    LinesOfJoin(trailer);
    AppendAssociative(header, if |groups| == 0 then [""] else Flatten(groups), trailer);
  }

  /** Whatever the groups contain, the header and trailer lines keep their
      places: the rendered text splits into the header, at least one line
      from the groups, and the trailer. */
  lemma TemplateFrame(header: seq<string>, groups: seq<seq<string>>, trailer: seq<string>)
    requires |header| >= 1 && |trailer| >= 1
    requires forall i :: 0 <= i < |header| ==> NoNewline(header[i])
    requires forall i :: 0 <= i < |trailer| ==> NoNewline(trailer[i])
    ensures var middle := Lines(Join(GroupTexts(groups), "\n"));
            |middle| >= 1 && Lines(Render(header, groups, trailer)) == header + middle + trailer
  {
    var middle := Join(GroupTexts(groups), "\n");
    var tail := Join(trailer, "\n");
    Regroup(Join(header, "\n") + "\n", middle, "\n", tail);
    LinesAfterJoin(header, middle + "\n" + tail);
    LinesAround(middle, tail);
    LinesOfJoin(trailer);
    AppendAssociative(header, Lines(middle), trailer);
  }

  // ---------------------------------------------------------------------
  // Commit commands

  lemma {:induction false} CommitCommandsAppend(a: seq<string>, b: seq<string>)
    ensures CommitCommands(a + b) == CommitCommands(a) + CommitCommands(b)
    decreases |a|
  {
    if |a| == 0 {
      assert a + b == b;
    } else {
      assert (a + b)[1..] == a[1..] + b;
      CommitCommandsAppend(a[1..], b);
    }
  }

  /** Plain lines hold no commit command. */
  lemma {:induction false} PlainLinesHaveNoCommits(lines: seq<string>)
    requires AllPlain(lines)
    ensures CommitCommands(lines) == []
    decreases |lines|
  {
    if |lines| > 0 {
      assert AllPlain(lines[1..]) by {
        forall i | 0 <= i < |lines[1..]| ensures PlainLine(lines[1..][i]) {
          assert lines[1..][i] == lines[i + 1];
        }
      }
      PlainLinesHaveNoCommits(lines[1..]);
    }
  }

  lemma AllPlainAppend(a: seq<string>, b: seq<string>)
    requires AllPlain(a) && AllPlain(b)
    ensures AllPlain(a + b)
  {
    forall i | 0 <= i < |a + b| ensures PlainLine((a + b)[i]) {
      if i >= |a| {
        assert (a + b)[i] == b[i - |a|];
      }
    }
  }

  /** If each group holds exactly one commit command, the commit commands of
      all the groups are those, in the groups' order. */
  lemma {:induction false} FlattenCommits(groups: seq<seq<string>>, commands: seq<string>)
    requires |commands| == |groups|
    requires forall i :: 0 <= i < |groups| ==> CommitCommands(groups[i]) == [commands[i]]
    ensures CommitCommands(Flatten(groups)) == commands
    decreases |groups|
  {
    if |groups| > 0 {
      CommitCommandsAppend(groups[0], Flatten(groups[1..]));
      FlattenCommits(groups[1..], commands[1..]);
      assert commands == [commands[0]] + commands[1..];
    }
  }

  /** The commit commands of the rendered template are the groups' ones when
      the header and trailer are plain. */
  lemma TemplateCommits(header: seq<string>, groups: seq<seq<string>>, trailer: seq<string>, commands: seq<string>)
    requires AllPlain(header) && AllPlain(trailer)
    requires |commands| == |groups|
    requires forall i :: 0 <= i < |groups| ==> CommitCommands(groups[i]) == [commands[i]]
    ensures CommitCommands(header + (if |groups| == 0 then [""] else Flatten(groups)) + trailer) == commands
  {
    var middle := if |groups| == 0 then [""] else Flatten(groups);
    CommitCommandsAppend(header, middle);
    CommitCommandsAppend(header + middle, trailer);
    PlainLinesHaveNoCommits(header);
    PlainLinesHaveNoCommits(trailer);
    if |groups| == 0 {
      assert CommitCommands([""]) == [] + CommitCommands([]);
    } else {
      FlattenCommits(groups, commands);
    }
  }

  lemma StartsWithDiffering(s: string, prefix: string)
    requires |s| > 0 && |prefix| > 0 && s[0] != prefix[0]
    ensures !StartsWith(s, prefix)
  {
    if |prefix| <= |s| {
      assert s[..|prefix|][0] != prefix[0];
    }
  }

  /** A newline-free line that does not start like a commit command is plain. */
  lemma PlainStart(line: string)
    requires NoNewline(line)
    requires |line| > 0 && line[0] != 'G'
    ensures PlainLine(line)
  {
    StartsWithDiffering(line, "GIT_AUTHOR_DATE=\"");
  }
}

=== FILE: text.dfy ===
/** String helpers the script generator is built from: `Array.prototype.join`,
    splitting text into lines, and the decimal rendering of a count. */
module Text {

  predicate NoNewline(s: string) {
    '\n' !in s
  }

  /** `parts.join(sep)`: the parts with `sep` between neighbours, and the
      empty string for no parts. */
  function Join(parts: seq<string>, sep: string): string
    decreases |parts|
  {
    if |parts| == 0 then ""
    else if |parts| == 1 then parts[0]
    else parts[0] + sep + Join(parts[1..], sep)
  }

  /** The lines of `s`: the pieces between newline characters. A text ending
      in a newline has an empty last line. */
  function Lines(s: string): (ls: seq<string>)
    ensures |ls| >= 1
    decreases |s|
  {
    if |s| == 0 then [""]
    else
      var rest := Lines(s[1..]);
      if s[0] == '\n' then [""] + rest
      else [[s[0]] + rest[0]] + rest[1..]
  }

  /** A newline-free text is a single line. */
  lemma {:induction false} LinesOfLine(s: string)
    requires NoNewline(s)
    ensures Lines(s) == [s]
    decreases |s|
  {
    if |s| > 0 {
      assert NoNewline(s[1..]) by {
        forall k | 0 <= k < |s[1..]| ensures s[1..][k] != '\n' {
          assert s[1..][k] == s[k + 1];
        }
      }
      LinesOfLine(s[1..]);
      assert s == [s[0]] + s[1..];
    }
  }

  /** A newline splits a text into the lines before it and the lines after
      it, whatever either part contains. */
  lemma {:induction false} LinesAround(a: string, b: string)
    ensures Lines(a + "\n" + b) == Lines(a) + Lines(b)
    decreases |a|
  {
    var s := a + "\n" + b;
    if |a| == 0 {
      assert s == "\n" + b;
      assert s[1..] == b;
    } else {
      assert s[1..] == a[1..] + "\n" + b;
      LinesAround(a[1..], b);
    }
  }

  /** A newline ends the line before it. */
  lemma LinesAfterLine(a: string, b: string)
    requires NoNewline(a)
    ensures Lines(a + "\n" + b) == [a] + Lines(b)
  {
    LinesAround(a, b);
    LinesOfLine(a);
  }

  /** Joining newline-free lines with newlines and then splitting the result
      back into lines, followed by whatever text comes next, gives the lines
      back. */
  lemma {:induction false} LinesAfterJoin(ls: seq<string>, rest: string)
    requires |ls| >= 1
    requires forall i :: 0 <= i < |ls| ==> NoNewline(ls[i])
    ensures Lines(Join(ls, "\n") + "\n" + rest) == ls + Lines(rest)
    decreases |ls|
  {
    if |ls| == 1 {
      LinesAfterLine(ls[0], rest);
    } else {
      var tail := Join(ls[1..], "\n");
      var after := tail + "\n" + rest;
      assert Join(ls, "\n") == ls[0] + "\n" + tail;
      assert Join(ls, "\n") + "\n" + rest == ls[0] + "\n" + after;
      LinesAfterLine(ls[0], after);
      LinesAfterJoin(ls[1..], rest);
      assert Lines(after) == ls[1..] + Lines(rest);
      assert ls == [ls[0]] + ls[1..];
    }
  }

  /** The round trip: splitting lines joined with newlines gives the lines. */
  lemma {:induction false} LinesOfJoin(ls: seq<string>)
    requires |ls| >= 1
    requires forall i :: 0 <= i < |ls| ==> NoNewline(ls[i])
    ensures Lines(Join(ls, "\n")) == ls
    decreases |ls|
  {
    if |ls| == 1 {
      LinesOfLine(ls[0]);
    } else {
      var tail := Join(ls[1..], "\n");
      assert Join(ls, "\n") == ls[0] + "\n" + tail;
      LinesAfterLine(ls[0], tail);
      LinesOfJoin(ls[1..]);
      assert ls == [ls[0]] + ls[1..];
    }
  }

  /** Joining two non-empty groups is joining each and putting the separator
      between them. */
  lemma {:induction false} JoinAppend(a: seq<string>, b: seq<string>, sep: string)
    requires |a| >= 1 && |b| >= 1
    ensures Join(a + b, sep) == Join(a, sep) + sep + Join(b, sep)
    decreases |a|
  {
    if |a| == 1 {
      assert (a + b)[1..] == b;
    } else {
      assert (a + b)[1..] == a[1..] + b;
      JoinAppend(a[1..], b, sep);
    }
  }

  predicate IsDigit(c: char) {
    '0' <= c <= '9'
  }

  predicate AllDigits(s: string) {
    forall i :: 0 <= i < |s| ==> IsDigit(s[i])
  }

  function DigitChar(d: nat): (c: char)
    requires d < 10
    ensures IsDigit(c)
  {
    "0123456789"[d]
  }

  /** The value of a digit string, most significant digit first. */
  function DigitsValue(s: string): nat
    requires AllDigits(s)
  {
    if |s| == 0 then 0
    else DigitsValue(s[..|s| - 1]) * 10 + ((s[|s| - 1] as int) - ('0' as int))
  }

  /** How JavaScript interpolates a non-negative integer into a template:
      decimal digits without leading zeros. */
  function Decimal(n: nat): (s: string)
    ensures |s| >= 1
    ensures AllDigits(s)
    ensures NoNewline(s)
    ensures |s| > 1 ==> s[0] != '0'
    ensures DigitsValue(s) == n
  {
    if n < 10 then
      [DigitChar(n)]
    else
      var prefix := Decimal(n / 10);
      var s := prefix + [DigitChar(n % 10)];
      assert s[..|s| - 1] == prefix;
      s
  }
}

=== FILE: weeks.dfy ===
/** Grouping the graph's days into weekday-aligned columns of seven cells. */
module Weeks {
  import opened Contribution
  import opened Sequences

  type Week = seq<ContributionDay>

  /** The cells the per-day pass accumulates: nothing for no days, otherwise
      `firstWeekday` padding cells followed by the days. */
  function Lead(days: seq<ContributionDay>, firstWeekday: nat): seq<ContributionDay> {
    if |days| == 0 then [] else Pad(firstWeekday) + days
  }

  /** The number of padding cells that completes a last, partial week. */
  function Fill(len: nat): nat {
    (7 - len % 7) % 7
  }

  /** The whole grid read column by column. */
  function Cells(days: seq<ContributionDay>, firstWeekday: nat): seq<ContributionDay> {
    var lead := Lead(days, firstWeekday);
    lead + Pad(Fill(|lead|))
  }

  /** Cuts a sequence whose length is a multiple of seven into weeks. */
  function Chunks(cells: seq<ContributionDay>): seq<Week>
    requires |cells| % 7 == 0
    decreases |cells|
  {
    if |cells| == 0 then [] else [cells[..7]] + Chunks(cells[7..])
  }

  /** Every week has all seven cells. */
  predicate FullWeeks(weeks: seq<Week>) {
    forall w :: w in weeks ==> |w| == 7
  }

  /** The reference definition of the grid's columns. */
  function Partition(days: seq<ContributionDay>, firstWeekday: nat): seq<Week> {
    Chunks(Cells(days, firstWeekday))
  }

  lemma {:induction false} FlattenLength(weeks: seq<Week>)
    requires FullWeeks(weeks)
    ensures |Flatten(weeks)| == 7 * |weeks|
    decreases |weeks|
  {
    if |weeks| > 0 {
      assert weeks[0] in weeks;
      FlattenLength(weeks[1..]);
    }
  }

  /** Cutting the cells of seven-cell weeks back into weeks gives the weeks. */
  lemma {:induction false} ChunksOfFlatten(weeks: seq<Week>)
    requires FullWeeks(weeks)
    ensures |Flatten(weeks)| % 7 == 0
    ensures Chunks(Flatten(weeks)) == weeks
    decreases |weeks|
  {
    FlattenLength(weeks);
    if |weeks| > 0 {
      assert weeks[0] in weeks;
      var cells := Flatten(weeks);
      assert cells[..7] == weeks[0];
      assert cells[7..] == Flatten(weeks[1..]);
      ChunksOfFlatten(weeks[1..]);
    }
  }

  /** Chunks keeps every cell in place: cell `c` of week `w` is cell `7w + c`. */
  lemma {:induction false} ChunksCell(cells: seq<ContributionDay>, w: nat, c: nat)
    requires |cells| % 7 == 0
    requires w < |cells| / 7 && c < 7
    ensures |Chunks(cells)| == |cells| / 7
    ensures |Chunks(cells)[w]| == 7
    ensures Chunks(cells)[w][c] == cells[7 * w + c]
    decreases |cells|
  {
    if w == 0 {
      ChunksLength(cells);
    } else {
      ChunksCell(cells[7..], w - 1, c);
    }
  }

  lemma {:induction false} ChunksLength(cells: seq<ContributionDay>)
    requires |cells| % 7 == 0
    ensures |Chunks(cells)| == |cells| / 7
    ensures FullWeeks(Chunks(cells))
    ensures Flatten(Chunks(cells)) == cells
    decreases |cells|
  {
    if |cells| > 0 {
      ChunksLength(cells[7..]);
      assert cells == cells[..7] + cells[7..];
    }
  }

  lemma CellsLength(days: seq<ContributionDay>, firstWeekday: nat)
    requires firstWeekday < 7
    ensures |Cells(days, firstWeekday)| % 7 == 0
    ensures |Cells(days, firstWeekday)| / 7 ==
              (if |days| == 0 then 0 else (firstWeekday + |days| + 6) / 7)
  {
    var len := |Lead(days, firstWeekday)|;
    var q, r := len / 7, len % 7;
    assert len == 7 * q + r;
    if r == 0 {
      assert |Cells(days, firstWeekday)| == 7 * q;
    } else {
      assert |Cells(days, firstWeekday)| == 7 * (q + 1);
    }
  }

  /** Every column of the grid has exactly seven cells. */
  lemma PartitionWeeksHaveSevenCells(days: seq<ContributionDay>, firstWeekday: nat)
    requires firstWeekday < 7
    ensures FullWeeks(Partition(days, firstWeekday))
  {
    CellsLength(days, firstWeekday);
    ChunksLength(Cells(days, firstWeekday));
  }

  /** There are `ceil((firstWeekday + n) / 7)` columns, and none at all for no
      days: an all-padding week is never emitted. */
  lemma PartitionWeekCount(days: seq<ContributionDay>, firstWeekday: nat)
    requires firstWeekday < 7
    ensures |Partition(days, firstWeekday)| ==
              (if |days| == 0 then 0 else (firstWeekday + |days| + 6) / 7)
    ensures |days| == 0 <==> Partition(days, firstWeekday) == []
  {
    CellsLength(days, firstWeekday);
    ChunksLength(Cells(days, firstWeekday));
  }

  /** Cell by cell: the positions before `firstWeekday` and after the last day
      hold padding, and the positions in between hold the days in order. */
  lemma PartitionCell(days: seq<ContributionDay>, firstWeekday: nat, w: nat, c: nat)
    requires firstWeekday < 7
    requires w < |Partition(days, firstWeekday)| && c < 7
    ensures |Partition(days, firstWeekday)[w]| == 7
    ensures var i := 7 * w + c;
            Partition(days, firstWeekday)[w][c] ==
              if firstWeekday <= i < firstWeekday + |days| then days[i - firstWeekday]
              else Placeholder
  {
    var cells := Cells(days, firstWeekday);
    CellsLength(days, firstWeekday);
    ChunksLength(cells);
    ChunksCell(cells, w, c);
    CellsCell(days, firstWeekday, 7 * w + c);
  }

  /** Cell `i` of the grid read column by column. */
  lemma CellsCell(days: seq<ContributionDay>, firstWeekday: nat, i: nat)
    requires i < |Cells(days, firstWeekday)|
    ensures Cells(days, firstWeekday)[i] ==
              if firstWeekday <= i < firstWeekday + |days| then days[i - firstWeekday]
              else Placeholder
  {
    var lead := Lead(days, firstWeekday);
    if |days| > 0 && i < |lead| {
      assert lead == Pad(firstWeekday) + days;
      if i >= firstWeekday {
        assert lead[i] == days[i - firstWeekday];
      }
    }
  }

  /** No week is padding only: every week holds at least one of the days. */
  lemma PartitionWeeksHoldDays(days: seq<ContributionDay>, firstWeekday: nat, w: nat)
    requires firstWeekday < 7
    requires w < |Partition(days, firstWeekday)|
    ensures |Partition(days, firstWeekday)[w]| == 7
    ensures exists c :: 0 <= c < 7 && firstWeekday <= 7 * w + c < firstWeekday + |days| &&
              Partition(days, firstWeekday)[w][c] == days[7 * w + c - firstWeekday]
  {
    PartitionWeekCount(days, firstWeekday);
    var c := if w == 0 then firstWeekday else 0;
    assert 7 * w < firstWeekday + |days|;
    PartitionCell(days, firstWeekday, w, c);
  }

  /** The first column starts with `firstWeekday` padding cells and then the
      first day. */
  lemma PartitionFirstWeek(days: seq<ContributionDay>, firstWeekday: nat)
    requires firstWeekday < 7
    requires |days| > 0
    ensures |Partition(days, firstWeekday)| > 0
    ensures Partition(days, firstWeekday)[0][..firstWeekday] == Pad(firstWeekday)
    ensures Partition(days, firstWeekday)[0][firstWeekday] == days[0]
  {
    var cells := Cells(days, firstWeekday);
    CellsLength(days, firstWeekday);
    ChunksLength(cells);
    assert Partition(days, firstWeekday)[0] == cells[..7];
  }

  /** Reading the columns in order gives the padding, the days in their
      original order, and at most six more padding cells. */
  lemma PartitionFlatten(days: seq<ContributionDay>, firstWeekday: nat)
    requires firstWeekday < 7
    requires |days| > 0
    ensures exists tail: nat :: tail < 7 &&
              Flatten(Partition(days, firstWeekday)) == Pad(firstWeekday) + days + Pad(tail)
  {
    CellsLength(days, firstWeekday);
    ChunksLength(Cells(days, firstWeekday));
    var tail := Fill(firstWeekday + |days|);
    assert Flatten(Partition(days, firstWeekday)) == Pad(firstWeekday) + days + Pad(tail);
  }

  /** The real days among `cells`, in order. */
  function RealDays(cells: seq<ContributionDay>): seq<ContributionDay> {
    if |cells| == 0 then []
    else (if IsPlaceholder(cells[0]) then [] else [cells[0]]) + RealDays(cells[1..])
  }

  lemma {:induction false} RealDaysAppend(a: seq<ContributionDay>, b: seq<ContributionDay>)
    ensures RealDays(a + b) == RealDays(a) + RealDays(b)
    decreases |a|
  {
    if |a| == 0 {
      assert a + b == b;
    } else {
      assert (a + b)[1..] == a[1..] + b;
      RealDaysAppend(a[1..], b);
    }
  }

  lemma {:induction false} RealDaysOfPad(k: nat)
    ensures RealDays(Pad(k)) == []
    decreases k
  {
    if k > 0 {
      assert Pad(k)[1..] == Pad(k - 1);
      RealDaysOfPad(k - 1);
    }
  }

  lemma {:induction false} RealDaysOfDays(days: seq<ContributionDay>)
    requires forall i :: 0 <= i < |days| ==> !IsPlaceholder(days[i])
    ensures RealDays(days) == days
    decreases |days|
  {
    if |days| > 0 {
      RealDaysOfDays(days[1..]);
    }
  }

  /** Dropping the padding from the columns gives back exactly the days, in
      their original order, when no day has an empty date. */
  lemma PartitionKeepsDays(days: seq<ContributionDay>, firstWeekday: nat)
    requires firstWeekday < 7
    requires forall i :: 0 <= i < |days| ==> !IsPlaceholder(days[i])
    ensures RealDays(Flatten(Partition(days, firstWeekday))) == days
  {
    var cells := Cells(days, firstWeekday);
    CellsLength(days, firstWeekday);
    ChunksLength(cells);
    if |days| > 0 {
      var lead := Pad(firstWeekday) + days;
      var tail := Fill(firstWeekday + |days|);
      assert cells == lead + Pad(tail);
      assert RealDays(lead) == days by {
        RealDaysAppend(Pad(firstWeekday), days);
        RealDaysOfPad(firstWeekday);
        RealDaysOfDays(days);
        assert [] + days == days;
      }
      assert RealDays(cells) == days by {
        RealDaysAppend(lead, Pad(tail));
        RealDaysOfPad(tail);
        assert days + [] == days;
      }
    } else {
      assert cells == [];
    }
  }

  /** Visiting day `index` extends the accumulated cells by that day, after
      the leading padding when it is the first day. */
  lemma LeadStep(weeks: seq<Week>, currentWeek: Week, days: seq<ContributionDay>, firstWeekday: nat, index: nat)
    requires index < |days|
    requires Flatten(weeks) + currentWeek == Lead(days[..index], firstWeekday)
    requires index == 0 ==> currentWeek == []
    ensures Flatten(weeks) + (if index == 0 then Pad(firstWeekday) else currentWeek) + [days[index]]
              == Lead(days[..index + 1], firstWeekday)
  {
    assert days[..index + 1] == days[..index] + [days[index]];
    if index == 0 {
      assert Flatten(weeks) == [];
    }
  }

  /** Padding the unfinished week completes the grid. */
  lemma FinishGrid(weeks: seq<Week>, currentWeek: Week, days: seq<ContributionDay>, firstWeekday: nat)
    requires FullWeeks(weeks)
    requires |currentWeek| < 7
    requires Flatten(weeks) + currentWeek == Lead(days, firstWeekday)
    ensures Flatten(weeks) + currentWeek + Pad(if |currentWeek| == 0 then 0 else 7 - |currentWeek|)
              == Cells(days, firstWeekday)
  {
    var lead := Lead(days, firstWeekday);
    FlattenLength(weeks);
    assert |lead| == 7 * |weeks| + |currentWeek|;
    assert |lead| % 7 == |currentWeek|;
  }

  /** Pushes padding cells onto `week` until it holds `size` cells. */
  method PadTo(week: Week, size: nat) returns (padded: Week)
    requires |week| <= size
    ensures padded == week + Pad(size - |week|)
  {
    padded := week;
    while |padded| < size
      invariant |week| <= |padded| <= size
      invariant padded == week + Pad(|padded| - |week|)
      decreases size - |padded|
    {
      padded := padded + [Placeholder];
    }
  }

  /** The body of the per-day pass: on the first day push the leading
      padding, then push the day, and close the week once it has seven cells. */
  method VisitDay(weeks: seq<Week>, currentWeek: Week, day: ContributionDay, isFirst: bool, firstWeekday: nat)
    returns (weeks': seq<Week>, currentWeek': Week)
    requires firstWeekday < 7
    requires FullWeeks(weeks) && |currentWeek| < 7
    requires isFirst ==> currentWeek == []
    ensures FullWeeks(weeks') && |currentWeek'| < 7
    ensures Flatten(weeks') + currentWeek' ==
              Flatten(weeks) + (if isFirst then Pad(firstWeekday) else currentWeek) + [day]
  {
    weeks' := weeks;
    currentWeek' := currentWeek;
    if isFirst {
      currentWeek' := PadTo(currentWeek', firstWeekday);
    }
    currentWeek' := currentWeek' + [day];
    if |currentWeek'| == 7 {
      FlattenPush(weeks', currentWeek');
      weeks' := weeks' + [currentWeek'];
      currentWeek' := [];
    }
  }

  /** After the last day: a non-empty unfinished week is padded to seven
      cells and closed; an empty one is dropped. */
  method CloseLastWeek(weeks: seq<Week>, currentWeek: Week) returns (weeks': seq<Week>)
    requires FullWeeks(weeks) && |currentWeek| < 7
    ensures FullWeeks(weeks')
    ensures Flatten(weeks') ==
              Flatten(weeks) + currentWeek + Pad(if |currentWeek| == 0 then 0 else 7 - |currentWeek|)
  {
    weeks' := weeks;
    if |currentWeek| > 0 {
      var padded := PadTo(currentWeek, 7);
      FlattenPush(weeks', padded);
      weeks' := weeks' + [padded];
    } else {
      assert Flatten(weeks) + currentWeek + Pad(0) == Flatten(weeks);
    }
  }

  /** The grouping pass as the page performs it: one visit per day, padding
      pushed before the first day, a week closed whenever it reaches seven
      cells, and a last partial week padded on the right. */
  method WeeklyData(days: seq<ContributionDay>, firstWeekday: nat) returns (weeks: seq<Week>)
    requires firstWeekday < 7
    ensures weeks == Partition(days, firstWeekday)
  {
    weeks := [];
    var currentWeek: Week := [];
    var index := 0;
    while index < |days|
      invariant 0 <= index <= |days|
      invariant FullWeeks(weeks)
      invariant |currentWeek| < 7
      invariant Flatten(weeks) + currentWeek == Lead(days[..index], firstWeekday)
    {
      LeadStep(weeks, currentWeek, days, firstWeekday, index);
      weeks, currentWeek := VisitDay(weeks, currentWeek, days[index], index == 0, firstWeekday);
      index := index + 1;
    }
    assert days[..index] == days;
    FinishGrid(weeks, currentWeek, days, firstWeekday);
    weeks := CloseLastWeek(weeks, currentWeek);
    ChunksOfFlatten(weeks);
  }
}
